=== FILE: README.md ===
# Naive recursive Fibonacci and its demonstration driver

A Dafny model of `examples/test_debug.py`, a small script that computes
Fibonacci numbers by naive double recursion and shows two `try`/`except`
blocks. The script has two parts:

- `fibonacci(n)` returns `n` when `n <= 1`, negative `n` included. Otherwise
  it returns `fibonacci(n-1) + fibonacci(n-2)`.
- `main()` prints the banner `Testing debugging capabilities...`. It then
  prints one line `fibonacci(<n>) = <result>` for each of `1, 2, ..., 8`,
  inside an `except Exception` that would print
  `Error calculating fibonacci(<n>): <e>` instead. Finally it evaluates
  `10 / 0` and catches the `ZeroDivisionError`, printing
  `Caught division error: <e>`.

The model has four modules:

- `Outcomes` (`outcomes.dfy`): `Option`, the script's exceptions, and
  `Outcome`, which stands for Python's raise/return.
- `Fibonacci` (`fibonacci.dfy`): `Fib`, its properties, and an iterative
  method proved equal to it on every integer.
- `Decimal` (`decimal.dfy`): Python's `str` on integers (without its digit limit), which is what the
  f-string fields `{num}` and `{result}` print, with a reader `ParseInt`
  that inverts it.
- `TestDebug` (`test_debug.dfy`): `main` as a pure function. It returns a
  `Run`: the printed lines in order, plus the exception that escaped
  `main`, if any.

The text of an exception message depends on the interpreter, so the driver
takes it as a parameter `message: Exception -> string`.

Negative `n` terminates: the base case at examples/test_debug.py:8-9
returns it, so `Fib(n) == n` for every `n <= 1` and `Fib` is total.

## Model

| member | source | states |
|---|---|---|
| `Fibonacci.Fib` | examples/test_debug.py:6-10 | Total on every integer: recursion happens only for `n >= 2` and lowers `n`. The result is non-negative exactly when `n` is, and at least 1 when `n >= 1`. |
| `Fibonacci.BaseCase` | examples/test_debug.py:8-9 | Every `n <= 1`, negatives included, is returned unchanged. |
| `Fibonacci.Recurrence` | examples/test_debug.py:8-10 | `Fib(n) == Fib(n-1) + Fib(n-2)` holds for every `n >= 2` and for no `n <= 1`. |
| `Fibonacci.Unique` | examples/test_debug.py:8-10 | Any integer function that satisfies the base case and the recurrence everywhere equals `Fib`, so the two rules determine the function. |
| `Fibonacci.FibMonotone` | examples/test_debug.py:8-10 | From 1 upwards the values never decrease. From 2 upwards they strictly increase. |
| `Fibonacci.FibIterative` | examples/test_debug.py:6-10 | A loop that carries the last two values returns `Fib(n)` for every integer `n`, negatives included. |
| `Decimal.NatToDecimal` | examples/test_debug.py:21 | A natural number is written as a non-empty string of digits. It has one digit exactly when the number is below 10, and no leading zero unless the number is 0. |
| `Decimal.NatRoundTrip` | examples/test_debug.py:21 | The digits written for a natural number denote that number. |
| `Decimal.IntToDecimal` | examples/test_debug.py:21 | An integer's rendering is non-empty and starts with `-` exactly when the integer is negative. Every character after that optional leading `-` is a digit. There is no leading zero: the digit after a `-` is never `0`, and a rendering that starts with `0` is `"0"`. |
| `Decimal.NoCloseParen` | examples/test_debug.py:21 | A rendering never contains `)`, so in a result line the number ends at the first `)`. |
| `Decimal.IntRoundTrip` | examples/test_debug.py:21 | Reading back the rendering of any integer gives that integer. |
| `Decimal.IntToDecimalInjective` | examples/test_debug.py:21 | Two integers are rendered alike exactly when they are equal, so every printed number identifies its value. |
| `TestDebug.LoopLines` | examples/test_debug.py:18-23 | The loop prints exactly one line per list element, in list order. Each line reports that element's own call: its value if the call returned, its error if it raised. |
| `TestDebug.CallFibonacci` | examples/test_debug.py:20 | (definition) The call at line 20, fixed to return `Fib(num)`; see `CallFibonacci` under "## Left out". |
| `TestDebug.SuccessLine` | examples/test_debug.py:21 | The success line starts with `fibonacci(`. |
| `TestDebug.SuccessLineInjective` | examples/test_debug.py:21 | Two success lines are equal exactly when they were printed for the same number and the same result, so a printed line determines both. |
| `TestDebug.FailureLine` | examples/test_debug.py:23 | The error line starts with `Error calculating fibonacci(`. |
| `TestDebug.ReportLine` | examples/test_debug.py:19-23 | An iteration's line starts with `Error calculating` exactly when its call raised. |
| `TestDebug.CallsReturn` | examples/test_debug.py:19-23 | Every loop line is the success line carrying `Fib` of its number. This holds because `CallFibonacci` always returns, and stack exhaustion is left out. |
| `TestDebug.Divide` | examples/test_debug.py:27 | (definition) `/` raises `ZeroDivisionError` exactly when the divisor is 0. |
| `TestDebug.CaughtLine` | examples/test_debug.py:29 | The caught-division line starts with `Caught division error: `. |
| `TestDebug.TryDivide` | examples/test_debug.py:26-29 | A zero divisor raises `ZeroDivisionError`, which is caught and reported on one line, and nothing escapes. A non-zero divisor prints nothing. |
| `TestDebug.RunMain` | examples/test_debug.py:12-29 | `main` never lets an exception escape. It prints two more lines than `numbers` has elements: the banner, one success line per number in order, then the caught-division line. |
| `TestDebug.MainOutput` | examples/test_debug.py:12-29 | `main` with its list fixed at line 14 lets no exception escape. It prints ten lines, the banner first and the caught-division line last. |
| `TestDebug.DriverResults` | examples/test_debug.py:14-21 | On the list `[1..8]`, in order, the results are `1, 1, 2, 3, 5, 8, 13, 21`. |
| `TestDebug.ReportedLines` | examples/test_debug.py:21 | The exact text of the eight result lines, from `fibonacci(1) = 1` to `fibonacci(8) = 21`. |
| `TestDebug.ExpectedOutput` | examples/test_debug.py:12-29 | `main` prints exactly ten lines: the banner, the eight result lines in ascending order, then `Caught division error: ` followed by the message. |
| `TestDebug.ErrorReportsExactlyForRaises` | examples/test_debug.py:18-23 | For any list and any call, a loop line is an error report exactly when that number's call raised. |
| `TestDebug.NoErrorReportsWhileCallsReturn` | examples/test_debug.py:18-23 | If every call on the list returns, no loop line is an error report. |
| `TestDebug.MainReportsNoErrors` | examples/test_debug.py:12-29 | With `CallFibonacci` built in, no output line of `main` over any list starts with `Error calculating`. This holds only because stack exhaustion and the digit limit of `str` are left out. |
| `TestDebug.NoCalculationErrors` | examples/test_debug.py:19-23 | On main's list `[1..8]`, no output line starts with `Error calculating`, so the per-number error branch is never taken. |

## Left out

- Printing to standard output is I/O. The model returns the lines in order instead.
- Exception messages such as `division by zero` come from the interpreter. They are the parameter `message`, not fixed text.
- Divide: records only whether `/` raised. The quotient (a float for non-zero divisors) is not modelled. An `OverflowError` from true division of huge integers is not modelled either, since the script divides 10 by 0.
- IntToDecimal: is total. Python limits the decimal digits of an integer converted to text (4300 by default), and above that `str` and the f-string fields raise `ValueError`. At examples/test_debug.py:21 such an error would be caught and reported by line 23. Main's list only prints numbers of at most two digits.
- CallFibonacci: always returns. Python raises `RecursionError` once `n` passes the interpreter's recursion limit, and the handler at examples/test_debug.py:22-23 would report it. Stack exhaustion is a resource limit, not functional behaviour, and main's list goes only to 8. For the same reason the exponential running time is not modelled.
- Python's general exception machinery becomes the `Outcome` datatype. Exceptions outside `Exception` (such as `KeyboardInterrupt`) are not modelled.
- The exit status is not a separate value. A normal exit corresponds to `Run.escaped == None`.
- The `if __name__ == "__main__"` guard (examples/test_debug.py:31-32) only decides whether running the file calls `main`; it computes nothing.
- `ParseInt` reads only an optional `-` followed by digits. Python's `int()` also accepts `+`, surrounding whitespace and underscores, but the model needs only the inverse of `str`.

=== FILE: decimal.dfy ===
/**
 Decimal rendering of integers, as Python's `str(int)` (and so an f-string
 field `{n}`) writes them: an optional `-` followed by the digits, without
 leading zeros.  `ParseInt` reads such a numeral back.
 */
module Decimal {
  import opened Outcomes

  predicate IsDigit(c: char) {
    '0' <= c <= '9'
  }

  predicate AllDigits(s: string) {
    forall i :: 0 <= i < |s| ==> IsDigit(s[i])
  }

  function DigitValue(c: char): (d: nat)
    requires IsDigit(c)
    ensures d < 10
  {
    c as int - '0' as int
  }

  function DigitChar(d: nat): (c: char)
    requires d < 10
    ensures IsDigit(c) && DigitValue(c) == d
  {
    ('0' as int + d) as char
  }

  /** The digits of a natural number, most significant first. */
  function NatToDecimal(n: nat): (s: string)
    ensures 1 <= |s| && AllDigits(s)
    ensures |s| == 1 <==> n < 10
    ensures s[0] == '0' <==> n == 0
    decreases n
  {
    if n < 10 then [DigitChar(n)] else NatToDecimal(n / 10) + [DigitChar(n % 10)]
  }

  /** The number a string of digits denotes. */
  function DecimalValue(s: string): nat
    requires AllDigits(s)
    decreases |s|
  {
    if s == [] then 0 else 10 * DecimalValue(s[..|s| - 1]) + DigitValue(s[|s| - 1])
  }

  /** Python's `str` on an integer. */
  function IntToDecimal(n: int): (s: string)
    ensures 1 <= |s|
    ensures s[0] == '-' <==> n < 0
    ensures forall i :: 0 <= i < |s| ==> IsDigit(s[i]) || (i == 0 && s[i] == '-')
    ensures n < 0 ==> 2 <= |s| && s[1] != '0'
    ensures s[0] == '0' ==> s == "0"
  {
    if n < 0 then "-" + NatToDecimal(-n) else NatToDecimal(n)
  }

  /** A rendering never contains a closing parenthesis, so text that follows
      a numeral can be told apart from it. */
  lemma NoCloseParen(n: int)
    ensures forall i :: 0 <= i < |IntToDecimal(n)| ==> IntToDecimal(n)[i] != ')'
  {
  }

  /** Reads an optionally negated string of digits. */
  function ParseInt(s: string): Option<int> {
    if 2 <= |s| && s[0] == '-' && AllDigits(s[1..]) then Some(0 - DecimalValue(s[1..]) as int)
    else if 1 <= |s| && AllDigits(s) then Some(DecimalValue(s))
    else None
  }

  lemma {:induction false} NatRoundTrip(n: nat)
    ensures DecimalValue(NatToDecimal(n)) == n
    decreases n
  {
    if 10 <= n {
      var s := NatToDecimal(n);
      assert s[..|s| - 1] == NatToDecimal(n / 10);
      NatRoundTrip(n / 10);
    }
  }

  /** A non-empty string of digits is read as the number it denotes. */
  lemma ParseDigits(digits: string)
    requires 1 <= |digits| && AllDigits(digits)
    ensures ParseInt(digits) == Some(DecimalValue(digits) as int)
  {
  }

  /** A minus sign before a non-empty string of digits negates its value. */
  lemma ParseNegated(digits: string)
    requires 1 <= |digits| && AllDigits(digits)
    ensures ParseInt("-" + digits) == Some(0 - DecimalValue(digits) as int)
  {
  }

  /** Reading back the rendering of any integer gives that integer. */
  lemma IntRoundTrip(n: int)
    ensures ParseInt(IntToDecimal(n)) == Some(n)
  {
    var m: nat := if n < 0 then -n else n;
    var digits := NatToDecimal(m);
    NatRoundTrip(m);
    if n < 0 {
      ParseNegated(digits);
    } else {
      ParseDigits(digits);
    }
  }

  /** Distinct integers are rendered differently. */
  lemma IntToDecimalInjective(a: int, b: int)
    ensures IntToDecimal(a) == IntToDecimal(b) <==> a == b
  {
    IntRoundTrip(a);
    IntRoundTrip(b);
  }
}

=== FILE: fibonacci.dfy ===
/**
 The naive recursive Fibonacci function of the script, the properties its
 base case and recurrence promise, and an iterative computation proved to
 agree with it on every integer.
 */
module Fibonacci {

  /** `fibonacci(n)`: every `n <= 1` (negative ones included) is returned as
      is, every larger `n` is the sum of the two previous values.  The
      recursion only happens for `n >= 2` and lowers `n`, so it is total. */
  function Fib(n: int): (r: int)
    ensures 0 <= r <==> 0 <= n
    ensures 1 <= n ==> 1 <= r
    decreases n
  {
    if n <= 1 then n else Fib(n - 1) + Fib(n - 2)
  }

  /** Every input of the base case, including the negative ones, is a fixed point. */
  lemma BaseCase(n: int)
    requires n <= 1
    ensures Fib(n) == n
  {}

  /** The recurrence holds from 2 upwards and nowhere else. */
  lemma Recurrence(n: int)
    ensures Fib(n) == Fib(n - 1) + Fib(n - 2) <==> 2 <= n
  {}

  /** `f` agrees with the base case at `k`. */
  ghost predicate BaseCaseAt(f: int -> int, k: int) {
    k <= 1 ==> f(k) == k
  }

  /** `f` satisfies the recurrence at `k`. */
  ghost predicate RecurrenceAt(f: int -> int, k: int) {
    2 <= k ==> f(k) == f(k - 1) + f(k - 2)
  }

  /** The base case and the recurrence determine the function: any function
      on the integers that satisfies both everywhere is `Fib`. */
  lemma {:induction false} Unique(f: int -> int, n: int)
    requires forall k :: BaseCaseAt(f, k)
    requires forall k :: RecurrenceAt(f, k)
    ensures f(n) == Fib(n)
    decreases n
  {
    if n <= 1 {
      assert BaseCaseAt(f, n);
    } else {
      assert RecurrenceAt(f, n);
      Unique(f, n - 1);
      Unique(f, n - 2);
    }
  }

  /** From 1 upwards the sequence never decreases, and from 2 upwards it
      strictly increases. */
  lemma {:induction false} FibMonotone(m: int, n: int)
    requires 1 <= m <= n
    ensures Fib(m) <= Fib(n)
    ensures 2 <= m < n ==> Fib(m) < Fib(n)
    decreases n - m
  {
    if m < n {
      FibMonotone(m, n - 1);
    }
  }

  /** A linear-time computation of the same function, carrying the last two
      values of the sequence. */
  method FibIterative(n: int) returns (r: int)
    ensures r == Fib(n)
  {
    if n <= 1 {
      return n;
    }
    var previous, current := 0, 1;
    var i := 1;
    while i < n
      invariant 1 <= i <= n
      invariant previous == Fib(i - 1)
      invariant current == Fib(i)
      decreases n - i
    {
      previous, current := current, previous + current;
      i := i + 1;
    }
    r := current;
  }
}

=== FILE: outcomes.dfy ===
/**
 The values the script's control flow passes around: an optional value, the
 Python exceptions it can observe, and the outcome of an expression that may
 raise one of them.
 */
module Outcomes {

  /** A value that may be absent: what `ParseInt` returns, and the exception, if any, that leaves `main`. */
  datatype Option<+T> = None | Some(value: T)

  /** The exception classes the script can see.  `ZeroDivisionError` is the one
      `10 / 0` raises; `OtherException` stands for every other subclass of
      `Exception`, named by its class. */
  datatype Exception = ZeroDivisionError | OtherException(className: string)

  /** Evaluating an expression either returns a value or raises an exception. */
  datatype Outcome<+T> = Returned(value: T) | Raised(error: Exception)
}

=== FILE: test_debug.dfy ===
/**
 The script's `main`: a banner, one report line per number of a fixed list,
 then a division by zero whose exception is caught and reported.  Printing is
 modelled by returning the lines in order, together with the exception that
 escaped `main`, if any.
 */
module TestDebug {
  import opened Outcomes
  import opened Fibonacci
  import opened Decimal

  /** What a run of `main` leaves behind. */
  datatype Run = Run(lines: seq<string>, escaped: Option<Exception>)

  const Numbers: seq<int> := [1, 2, 3, 4, 5, 6, 7, 8]

  const Banner: string := "Testing debugging capabilities..."

  predicate StartsWith(s: string, prefix: string) {
    |prefix| <= |s| && s[..|prefix|] == prefix
  }

  /** A string that starts with `prefix` starts with every prefix of it. */
  lemma PrefixOfPrefix(s: string, prefix: string, shorter: string)
    requires StartsWith(s, prefix) && StartsWith(prefix, shorter)
    ensures StartsWith(s, shorter)
  {
  }

  /** A string starts with a non-empty prefix only if their first characters agree. */
  lemma OpensWith(s: string, prefix: string)
    requires 0 < |s| && 0 < |prefix|
    ensures StartsWith(s, prefix) ==> s[0] == prefix[0]
  {
  }

  /** The call `fibonacci(n)` inside the loop's `try`.  It always returns
      `fibonacci(n)`: exhausting the interpreter's stack is not part of this
      model. */
  function CallFibonacci(n: int): Outcome<int> {
    Returned(Fib(n))
  }

  /** `fibonacci(<num>) = <result>`, printed when the call returned. */
  function SuccessLine(num: int, result: int): (line: string)
    ensures StartsWith(line, "fibonacci(")
  {
    "fibonacci(" + IntToDecimal(num) + ") = " + IntToDecimal(result)
  }

  /** `Error calculating fibonacci(<num>): <e>`, printed when the call raised `e`;
      `message` is the interpreter's text for an exception. */
  function FailureLine(num: int, e: Exception, message: Exception -> string): (line: string)
    ensures StartsWith(line, "Error calculating fibonacci(")
  {
    "Error calculating fibonacci(" + IntToDecimal(num) + "): " + message(e)
  }

  /** `Caught division error: <e>`. */
  function CaughtLine(e: Exception, message: Exception -> string): (line: string)
    ensures StartsWith(line, "Caught division error: ")
  {
    "Caught division error: " + message(e)
  }

  /** A success line gives back the number and the result it was printed
      for: no two different calls produce the same line. */
  lemma SuccessLineInjective(a: int, r: int, b: int, t: int)
    ensures SuccessLine(a, r) == SuccessLine(b, t) <==> a == b && r == t
  {
    if SuccessLine(a, r) == SuccessLine(b, t) {
      var numA, resA := IntToDecimal(a), IntToDecimal(r);
      var numB, resB := IntToDecimal(b), IntToDecimal(t);
      var line := SuccessLine(a, r);
      assert line == "fibonacci(" + numA + ") = " + resA;
      assert line == "fibonacci(" + numB + ") = " + resB;
      // The numeral ends where the first ')' stands, and numerals hold none,
      // so the two numerals have the same length.
      NoCloseParen(a);
      NoCloseParen(b);
      assert line[10 + |numA|] == ')' && line[10 + |numB|] == ')';
      assert forall k :: 0 <= k < |numA| ==> line[10 + k] == numA[k];
      assert forall k :: 0 <= k < |numB| ==> line[10 + k] == numB[k];
      assert |numA| == |numB|;
      assert numA == line[10..10 + |numA|] == numB;
      assert resA == line[14 + |numA|..] == resB;
      IntToDecimalInjective(a, b);
      IntToDecimalInjective(r, t);
    }
  }

  /** The line one loop iteration prints for `num` tells whether the call
      failed: it is an error report exactly when the call raised. */
  function ReportLine(num: int, attempt: Outcome<int>, message: Exception -> string): (line: string)
    ensures StartsWith(line, "Error calculating") <==> attempt.Raised?
  {
    match attempt
    case Returned(result) =>
      var line := SuccessLine(num, result);
      OpensWith(line, "Error calculating");
      line
    case Raised(e) =>
      var line := FailureLine(num, e, message);
      PrefixOfPrefix(line, "Error calculating fibonacci(", "Error calculating");
      line
  }

  /** The loop over `nums`, each number handed to `call`: every exception
      is caught by `except Exception`, so each number yields exactly one
      line, in the order of the list, whether its call returned or raised. */
  function LoopLines(nums: seq<int>, call: int -> Outcome<int>, message: Exception -> string): (lines: seq<string>)
    ensures |lines| == |nums|
    ensures forall i :: 0 <= i < |nums| ==> lines[i] == ReportLine(nums[i], call(nums[i]), message)
  {
    if nums == [] then []
    else [ReportLine(nums[0], call(nums[0]), message)] + LoopLines(nums[1..], call, message)
  }

  /** Python's true division `dividend / divisor` on integers.  Only the
      zero divisor is modelled: the quotient itself is not. */
  function Divide(dividend: int, divisor: int): Outcome<()> {
    if divisor == 0 then Raised(ZeroDivisionError) else Returned(())
  }

  /** `try: dividend / divisor` with `except ZeroDivisionError`: a zero
      divisor is caught and reported on one line, and nothing escapes. */
  function TryDivide(dividend: int, divisor: int, message: Exception -> string): (run: Run)
    ensures divisor == 0 ==> run == Run([CaughtLine(ZeroDivisionError, message)], None)
    ensures divisor != 0 ==> run == Run([], None)
  {
    match Divide(dividend, divisor)
    case Returned(_) => Run([], None)
    case Raised(ZeroDivisionError) => Run([CaughtLine(ZeroDivisionError, message)], None)
    case Raised(e) => Run([], Some(e))
  }

  /** The body of `main()` run over the list `numbers`: the banner, one
      result line per number in list order, then the caught division error;
      no exception escapes. */
  function RunMain(numbers: seq<int>, message: Exception -> string): (run: Run)
    ensures run.escaped == None
    ensures |run.lines| == 2 + |numbers|
    ensures run.lines[0] == Banner
    ensures forall i :: 1 <= i <= |numbers| ==>
      run.lines[i] == SuccessLine(numbers[i - 1], Fib(numbers[i - 1]))
    ensures run.lines[|run.lines| - 1] == CaughtLine(ZeroDivisionError, message)
  {
    var loop := LoopLines(numbers, CallFibonacci, message);
    var division := TryDivide(10, 0, message);
    var lines := [Banner] + loop + division.lines;
    CallsReturn(numbers, message);
    assert forall i :: 1 <= i <= |numbers| ==> lines[i] == loop[i - 1];
    Run(lines, division.escaped)
  }

  /** Since `CallFibonacci` never raises (stack exhaustion is left out),
      every line of the loop reports a value. */
  lemma CallsReturn(numbers: seq<int>, message: Exception -> string)
    ensures forall i :: 0 <= i < |numbers| ==>
      LoopLines(numbers, CallFibonacci, message)[i] == SuccessLine(numbers[i], Fib(numbers[i]))
  {
  }

  /** `main()`, whose list is fixed: it lets nothing escape and prints ten
      lines, the banner first and the caught division error last. */
  function MainOutput(message: Exception -> string): (run: Run)
    ensures run.escaped == None
    ensures |run.lines| == 10
    ensures run.lines[0] == Banner
    ensures run.lines[9] == CaughtLine(ZeroDivisionError, message)
  {
    RunMain(Numbers, message)
  }

  /** On the fixed list the results are the first eight Fibonacci numbers from 1. */
  lemma DriverResults()
    ensures seq(|Numbers|, i requires 0 <= i < |Numbers| => Fib(Numbers[i])) == [1, 1, 2, 3, 5, 8, 13, 21]
  {
  }

  /** The exact text `main` prints: ten lines, in this order. */
  lemma ExpectedOutput(message: Exception -> string)
    ensures |MainOutput(message).lines| == 10
    ensures MainOutput(message).lines[0] == "Testing debugging capabilities..."
    ensures MainOutput(message).lines[1] == "fibonacci(1) = 1"
    ensures MainOutput(message).lines[2] == "fibonacci(2) = 1"
    ensures MainOutput(message).lines[3] == "fibonacci(3) = 2"
    ensures MainOutput(message).lines[4] == "fibonacci(4) = 3"
    ensures MainOutput(message).lines[5] == "fibonacci(5) = 5"
    ensures MainOutput(message).lines[6] == "fibonacci(6) = 8"
    ensures MainOutput(message).lines[7] == "fibonacci(7) = 13"
    ensures MainOutput(message).lines[8] == "fibonacci(8) = 21"
    ensures MainOutput(message).lines[9] == "Caught division error: " + message(ZeroDivisionError)
  {
    ReportedLines();
  }

  /** The text of the eight result lines. */
  lemma ReportedLines()
    ensures SuccessLine(1, Fib(1)) == "fibonacci(1) = 1"
    ensures SuccessLine(2, Fib(2)) == "fibonacci(2) = 1"
    ensures SuccessLine(3, Fib(3)) == "fibonacci(3) = 2"
    ensures SuccessLine(4, Fib(4)) == "fibonacci(4) = 3"
    ensures SuccessLine(5, Fib(5)) == "fibonacci(5) = 5"
    ensures SuccessLine(6, Fib(6)) == "fibonacci(6) = 8"
    ensures SuccessLine(7, Fib(7)) == "fibonacci(7) = 13"
    ensures SuccessLine(8, Fib(8)) == "fibonacci(8) = 21"
  {
    // The two-digit numerals, settled first, keep the unfolding small.
    assert Fib(7) == 13 && Fib(8) == 21;
    assert IntToDecimal(13) == "13" && IntToDecimal(21) == "21";
  }

  /** For main's list the per-number error branch is never taken: no line of
      the output reports a failed calculation. */
  lemma NoCalculationErrors(message: Exception -> string)
    ensures forall i :: 0 <= i < |MainOutput(message).lines| ==>
      !StartsWith(MainOutput(message).lines[i], "Error calculating")
  {
    MainReportsNoErrors(Numbers, message);
  }

  /** The loop prints an error report for a number exactly when that
      number's call raised; the `except Exception` branch is taken for those
      numbers and no others. */
  lemma ErrorReportsExactlyForRaises(nums: seq<int>, call: int -> Outcome<int>, message: Exception -> string)
    ensures forall i :: 0 <= i < |nums| ==>
      (StartsWith(LoopLines(nums, call, message)[i], "Error calculating") <==> call(nums[i]).Raised?)
  {
  }

  /** While every call returns, the loop prints no error report. */
  lemma NoErrorReportsWhileCallsReturn(nums: seq<int>, call: int -> Outcome<int>, message: Exception -> string)
    requires forall i :: 0 <= i < |nums| ==> call(nums[i]).Returned?
    ensures forall i :: 0 <= i < |nums| ==>
      !StartsWith(LoopLines(nums, call, message)[i], "Error calculating")
  {
  }

  /** `main` run over any list with `CallFibonacci`, which never raises (stack
      exhaustion and the digit limit of `str` are left out): no line of the
      output is an error report. */
  lemma MainReportsNoErrors(numbers: seq<int>, message: Exception -> string)
    ensures forall i :: 0 <= i < |RunMain(numbers, message).lines| ==>
      !StartsWith(RunMain(numbers, message).lines[i], "Error calculating")
  {
    var lines := RunMain(numbers, message).lines;
    forall i | 0 <= i < |lines|
      ensures !StartsWith(lines[i], "Error calculating")
    {
      // Each line opens with 'T', 'f' or 'C', never with the 'E' of an error report.
      var first: char;
      if i == 0 {
        first := 'T';
      } else if i <= |numbers| {
        first := 'f';
      } else {
        first := 'C';
      }
      assert |lines[i]| > 0 && lines[i][0] == first;
      OpensWith(lines[i], "Error calculating");
    }
  }
}
